=== FILE: README.md ===
# YouTube video assistant: URL parsing, transcript flattening and session logic

The application takes a YouTube URL, fetches the video's English captions,
indexes them in a vector store, has a language model summarize them, and
then answers questions about the video from the passages the store
retrieves. Almost all of that is delegated to libraries. This project
models the part the application decides for itself:

- `get_video_id` (`utils.py`): one `re.search` of a fixed pattern that
  captures an 11-character id from `[A-Za-z0-9_-]`. The model
  (`VideoId`) follows Python's backtracking engine. For each start
  position, leftmost first, it runs the pattern's choices in the order the
  engine tries them: `https://` before `http://` before no scheme, `www.`
  before none, the three `youtube.com/` path alternatives in order, greedy
  runs longest first, the lazy `\S*?` shortest first. Each choice either
  reaches eleven id characters, which ends the search, or falls through to
  the next one. Separately, `UrlPattern` states the language of the
  pattern declaratively. At every level of the pattern, soundness and
  completeness lemmas connect the engine to that language. As a result,
  `GetVideoId` is characterised without reference to the engine: it
  returns a capture of the leftmost match, or `None` exactly when the
  pattern matches nowhere.
- `format_transcript_as_text` (`utils.py`): the caption texts joined by
  single spaces. `Text` defines `sep.join` once, for `" ".join` here and
  for `"\n".join` in `answer_question`. Its partner is `str.split`, with
  round-trip lemmas in both directions.
- `video_data_store`, `process_video_and_get_summary` and
  `answer_question` (`app.py`), in `Session`. The global record is a value
  passed in and returned. The transcript service, text splitter, vector
  store builder, similarity search and the two language-model chains form
  one `Services` value per user action. The model makes no claim about
  their answers. Each callback also returns the list of outside calls it
  made (`Effect`), so "no fetch and no rebuild when the same video is
  processed again" is a property of the result. A sequence of user actions
  (`Run`) carries the session invariants.

Behaviour of the code that is easy to misread:

- Exceptions from the splitter, the store builder, the similarity search
  and the chains are not caught; they are modelled as `Raises`. The only
  exception handling on these paths is inside `get_transcript`, which
  turns every failure into `None`. Summarization runs after the record update
  (`app.py:46-51`), so a failing summary leaves the new video loaded.
- Processing an already-loaded video runs the summarization chain again
  on the stored transcript. No summary is cached.
- `if not raw_transcript` treats an empty caption list like a missing one.
- `answer_question` tests only for a vector store, not for a loaded video
  id.
- The code has no chunker or vector index of its own: it calls
  `RecursiveCharacterTextSplitter` and FAISS.

## Model

| member | source | states |
|---|---|---|
| `Text.Join` | utils.py:29 | `sep.join(parts)`: empty for no parts, otherwise total length of the parts plus one separator per gap, beginning with the first part followed by the separator |
| `Text.SplitJoin` | utils.py:29 | joining separator-free parts and splitting the result gives back exactly the parts, in order |
| `Text.JoinSplit` | utils.py:29 | join is a left inverse of split: joining the pieces of any string rebuilds it |
| `Transcript.FormatTranscriptAsText` | utils.py:25-29 | the empty caption list gives `""` and a single caption gives its text; otherwise the length is the sum of the caption lengths plus one space per gap, and the text starts with the first caption |
| `Transcript.FormatCons` | utils.py:29 | for any captions, spaces inside them included, flattening a caption ahead of a non-empty rest gives that caption's text, one space, then the flattened rest; with the single-caption case this fixes the whole text as the space-join |
| `Transcript.FormatSplitsBack` | utils.py:29 | when no caption contains a space, splitting the flattened text on spaces recovers every caption text in order |
| `Transcript.FormatOfSplit` | utils.py:29 | flattening captions made from the space-separated words of a text rebuilds that text |
| `VideoId.SegmentEnd` | utils.py:8 | the greedy `[^/\n\s]+` run from a position: every character in it is a segment character and the one after it is not |
| `VideoId.NonSpaceEnd` | utils.py:8 | the greedy `\S+` run from a position: no whitespace in it, whitespace or end of string right after |
| `VideoId.SlashRun` | utils.py:8 | the greedy `\S+/` with backtracking: a result is a position just after a `/` inside the `\S` run, followed by eleven id characters, and no later such `/` in the run is followed by an id; `None` only when no such position exists in the run |
| `VideoId.QueryRun` | utils.py:8 | the lazy `\S*?[?&]v=`: a result follows a `?v=` or `&v=` within the allowed run lengths and is followed by eleven id characters, and no earlier key in range is followed by an id; `None` only when no such key in range is followed by an id |
| `VideoId.EmbedRun` | utils.py:8 | `(?:v\|e(?:mbed)?)/`: a result follows `v/`, `embed/` or `e/` and is followed by an id; `None` only when none of the three is followed by one |
| `VideoId.ShortSegmentsFail` | utils.py:8 | backtracking `[^/\n\s]+` to a shorter run never helps: a shorter run is followed by a segment character, never by `/` |
| `VideoId.NestedRunSound` | utils.py:8 | what `[^/\n\s]+/\S+/` finds after `youtube.com/` is an instance of that alternative followed by an id |
| `VideoId.NestedRunComplete` | utils.py:8 | every instance of `[^/\n\s]+/\S+/` followed by an id makes that alternative succeed |
| `VideoId.QueryRunAllFacts` | utils.py:8 | `\S*?[?&]v=` after `youtube.com/` finds an instance of itself followed by an id, and succeeds whenever one exists |
| `VideoId.PathRunSound` | utils.py:8 | what the three path alternatives find, in order, is a path of the pattern followed by an id |
| `VideoId.PathRunComplete` | utils.py:8 | any path of the pattern followed by an id makes the path alternatives succeed |
| `VideoId.HostRunSound` | utils.py:8 | what `youtube.com/…` or else `youtu.be/` finds is a host and path of the pattern followed by an id |
| `VideoId.HostRunComplete` | utils.py:8 | any host and path of the pattern followed by an id make the host alternatives succeed |
| `VideoId.WwwRunSound` | utils.py:8 | what the run after the scheme finds is an optional `www.`, a host and a path, followed by an id |
| `VideoId.WwwRunComplete` | utils.py:8 | any optional `www.`, host and path followed by an id make the run after the scheme succeed |
| `VideoId.MatchAtFacts` | utils.py:8-9 | the attempt at one start position fails exactly when no match of the pattern starts there, and what it returns is a match from there |
| `VideoId.FirstSuccess` | utils.py:9 | a scan of the attempts: a result is the value of some attempt and every earlier attempt failed; `None` exactly when every attempt fails |
| `VideoId.LeftmostMatch` | utils.py:9 | `re.search` over all start positions returns the capture of a match at the leftmost start that has one, and `None` exactly when no start has a match |
| `VideoId.GetVideoId` | utils.py:6-10 | a result is 11 characters of `[A-Za-z0-9_-]`, the capture of a match in the URL (a contiguous slice of it), found at the leftmost matching start; `None` exactly when no position of the URL matches |
| `VideoIdShapes.ShortLinkYieldsId` | utils.py:8 | scheme and `www.` are optional: `youtu.be/<id>` followed by anything yields that id, so characters after the eleventh are ignored |
| `VideoIdShapes.WatchLinkYieldsId` | utils.py:8 | `https://www.youtube.com/watch?v=<id>` followed by anything without a `/` yields that id |
| `Session.Summarized` | app.py:33-34 | the summarization step leaves the record as given and logs one summarization of its transcript; the reply is the given status, the chain's summary of that transcript and an empty answer box, or the chain's exception when it raises |
| `Session.ProcessId` | app.py:31-53 | for a parsed id: the loaded id is only re-summarized (no fetch, no build, record unchanged), and the reply carries the chain's summary or its exception; a new id without captions leaves the record unchanged and reports it; the record changes only to one whose id, flattened transcript and store all come from this id's fetch, split and build, and does change whenever those succeed; a new video that loads and whose summarization returns gets exactly the reply `Processed` with the chain's summary of its flattened text and an empty answer box, and a summarization failure after the update escapes with the video loaded; "no transcript" is reported only when the service has no captions; exceptions from the splitter and the store builder escape with the record unchanged; a reported success names the loaded video, which has a store |
| `Session.Process` | app.py:22-29 | the empty URL is refused with "Please enter…" before parsing; an unparsable URL is refused with "Invalid YouTube URL"; both leave the record unchanged and call nothing; every returned reply clears the answer box |
| `Session.AnswerQuestion` | app.py:55-68 | the empty question is refused before the store is looked at; with no store the reply is "process a video first"; otherwise the store is searched for the question with k = 5 and the answer chain receives the retrieved texts joined by line breaks, in retrieval order |
| `Session.ContextKeepsRetrievedTexts` | app.py:63-64 | when no retrieved text contains a line break, the context given to the answer chain splits back into exactly the retrieved texts, in order |
| `Session.RunProvenance` | app.py:46-48 | after any sequence of actions the record is either untouched or, all three fields together, what one processing action of the sequence wrote |
| `Session.SessionProvenance` | app.py:16-20 | from start-up the record holds `None`, `""`, `None` until some processing action writes all three fields at once |
| `Session.RunConsistent` | app.py:46-48 | no action sequence breaks "nothing loaded, or an id and a store both loaded" |
| `Session.ReprocessingIsIdempotent` | app.py:31-34 | processing the id of a video that loads successfully, then processing the same id again, fetches its captions only the first time; the second call makes only a summarization call and leaves the record alone |

## Left out

- GetVideoId: when several captures are possible at the leftmost matching start, the contract says only that the result is one of them; which one is fixed by the engine order that `MatchAt` and the functions below it spell out, not by a declarative statement.
- `chunk_text` (`text_processor.py`) forwards to `RecursiveCharacterTextSplitter`. That library's splitting behaviour is not part of this model. The splitter is an oracle that returns chunks or raises, so no chunk-size, overlap or round-trip property is stated.
- `llm_handler.py` (model construction, embeddings, FAISS store creation, prompt templates, configuration constants such as temperature 0.7) is not part of this model. The store builder, the similarity search and the two chains are oracles.
- The network access and exception handling inside `get_transcript` (`utils.py:12-23`) are left out. It is an oracle that answers an optional caption list. Its console messages are not modelled.
- The contents of summaries, answers and similarity-search rankings are left out. They come from external services, and each user action gets its own `Services` value, so nothing is assumed across actions.
- The Gradio interface and server launch (`app.py:70-100`) are not modelled. A raised exception is modelled as `Raises`. How the UI shows it is not modelled.
- `Session.StatusText` only records the exact message strings of the statuses; no contract reads it, and the contracts speak of the `Status` values.
- The callbacks are modelled one at a time: `Run` applies each action to the record the previous one left. The record update at `app.py:46-48` is three separate assignments and `answer_question` reads the store twice (`app.py:59`, `app.py:63`), so two callbacks running concurrently could mix fields; concurrent calls are outside the model, and `Session.RunProvenance` and `Session.SessionProvenance` hold only when the interface runs the callbacks one after another.
- Caption timing (`start`, `duration`) is carried as `real` and never read, as in the code.
- Python truthiness of the vector store object is modelled as its presence (`Some`). Any built store counts as present.
- Inputs that are not strings (which would make `re.search` or `str.join` raise) are outside the model: URLs, questions and captions are `string`.

=== FILE: session.dfy ===
/** The session logic of `app.py`: the global `video_data_store` record and
    the two callbacks wired to the buttons, `process_video_and_get_summary`
    and `answer_question`. Every library the callbacks reach (transcript
    service, text splitter, vector store, language-model chains) is a
    parameter whose answers the model makes no claim about. */
module Session {
  import opened Wrappers
  import opened Text
  import opened Transcript
  import opened VideoId

  /** A vector store built by the library; only its identity is modelled. */
  datatype VectorStore = VectorStore(handle: nat)

  /** `video_data_store`: the video currently loaded, its flattened
      transcript, and the vector store built from it. */
  datatype VideoData = VideoData(videoId: Option<string>, transcript: string, vectorStore: Option<VectorStore>)

  /** The record as the module creates it, before any video is processed. */
  function Initial(): VideoData
  {
    VideoData(None, "", None)
  }

  /** The answers of the code outside the model for one callback run.
      `get_transcript` catches every exception and answers `None`; the others
      may raise, and the callbacks do not catch what they raise. */
  datatype Services = Services(
    fetchTranscript: string -> Option<seq<Segment>>,
    chunkText: string -> Call<seq<string>>,
    createVectorStore: seq<string> -> Call<VectorStore>,
    summarize: string -> Call<string>,
    similaritySearch: (VectorStore, string, nat) -> Call<seq<string>>,
    answer: (string, string) -> Call<string>)

  /** One call a callback makes into the code outside the model. */
  datatype Effect =
    | FetchTranscript(videoId: string)
    | ChunkText(text: string)
    | CreateVectorStore(chunks: seq<string>)
    | Summarize(transcript: string)
    | SimilaritySearch(store: VectorStore, query: string, k: nat)
    | AnswerWithContext(context: string, question: string)

  /** The status line `process_video_and_get_summary` reports. */
  datatype Status =
    | EnterUrl
    | InvalidUrl
    | AlreadyProcessed(videoId: string)
    | NoTranscript(videoId: string)
    | Processed(videoId: string)

  /** The text shown for each status. */
  function StatusText(st: Status): string
  {
    match st
    case EnterUrl => "Please enter a YouTube URL."
    case InvalidUrl => "Invalid YouTube URL provided."
    case AlreadyProcessed(id) => "Video '" + id + "' is already processed. Ready for Q&A."
    case NoTranscript(id) => "Could not retrieve a transcript for video '" + id + "'."
    case Processed(id) => "Successfully processed video '" + id + "'."
  }

  /** The three outputs of `process_video_and_get_summary`: status, summary
      and the answer box, which every return clears. */
  datatype Outputs = Outputs(status: Status, summary: string, answer: string)

  /** The record after a callback, what the callback returned or raised, and
      the calls it made outside the model, in order. */
  datatype Step = Step(state: VideoData, reply: Call<Outputs>, calls: seq<Effect>)

  /** Nothing was loaded, or a video id and a vector store both were. */
  predicate Consistent(d: VideoData)
  {
    d == Initial() || (d.videoId.Some? && d.vectorStore.Some?)
  }

  /** The transcript service has captions for `id`: `if not raw_transcript`
      rejects `None` and the empty list alike. */
  predicate HasTranscript(svc: Services, id: string)
  {
    svc.fetchTranscript(id).Some? && |svc.fetchTranscript(id).value| > 0
  }

  /** A fresh processing of `id` with `svc` can reach the record update: the
      captions exist and neither the splitter nor the store builder raises. */
  predicate Loadable(svc: Services, id: string)
  {
    && HasTranscript(svc, id)
    && svc.chunkText(FormatTranscriptAsText(svc.fetchTranscript(id).value)).Returns?
    && svc.createVectorStore(svc.chunkText(FormatTranscriptAsText(svc.fetchTranscript(id).value)).value).Returns?
  }

  /** All three fields of `d` come from one processing of `id` with `svc`:
      the id itself, the flattened captions fetched for it, and the store
      built from the chunks of exactly that text. */
  predicate BuiltFrom(d: VideoData, id: string, svc: Services)
  {
    && d.videoId == Some(id)
    && HasTranscript(svc, id)
    && d.transcript == FormatTranscriptAsText(svc.fetchTranscript(id).value)
    && svc.chunkText(d.transcript).Returns?
    && d.vectorStore.Some?
    && svc.createVectorStore(svc.chunkText(d.transcript).value) == Returns(d.vectorStore.value)
  }

  /** Runs the summarization chain on `d`'s transcript and reports `status`
      with the summary, leaving `d` as the record. */
  function Summarized(d: VideoData, svc: Services, status: Status, calls: seq<Effect>): (r: Step)
    ensures r.state == d && r.calls == calls + [Summarize(d.transcript)]
    ensures r.reply.Returns? ==> r.reply.value.status == status && r.reply.value.answer == ""
    // The summary shown is the chain's, and an exception from the chain escapes.
    ensures svc.summarize(d.transcript).Returns? ==>
      r.reply == Returns(Outputs(status, svc.summarize(d.transcript).value, ""))
    ensures svc.summarize(d.transcript).Raises? ==> r.reply == Raises(svc.summarize(d.transcript).error)
  {
    var calls' := calls + [Summarize(d.transcript)];
    match svc.summarize(d.transcript)
    case Raises(e) => Step(d, Raises(e), calls')
    case Returns(summary) => Step(d, Returns(Outputs(status, summary, "")), calls')
  }

  /** `process_video_and_get_summary` once the URL has yielded the id `id`. */
  function ProcessId(s: VideoData, id: string, svc: Services): (r: Step)
    ensures r.reply.Returns? ==> r.reply.value.answer == ""
    // The loaded video is only summarized again: nothing is fetched or built.
    ensures s.videoId == Some(id) ==>
      && r.state == s && r.calls == [Summarize(s.transcript)]
      && (r.reply.Returns? ==> r.reply.value.status == AlreadyProcessed(id))
      && (svc.summarize(s.transcript).Returns? ==>
            r.reply == Returns(Outputs(AlreadyProcessed(id), svc.summarize(s.transcript).value, "")))
      && (svc.summarize(s.transcript).Raises? ==> r.reply == Raises(svc.summarize(s.transcript).error))
    // A new video without captions leaves the record as it was.
    ensures s.videoId != Some(id) && !HasTranscript(svc, id) ==>
      r == Step(s, Returns(Outputs(NoTranscript(id), "", "")), [FetchTranscript(id)])
    // The record changes only wholesale, to what processing the new id builds ...
    ensures r.state != s ==> s.videoId != Some(id) && BuiltFrom(r.state, id, svc)
    // ... and it does change whenever that processing gets that far.
    ensures s.videoId != Some(id) && Loadable(svc, id) ==> BuiltFrom(r.state, id, svc)
    // Captions are fetched only for an id that is not the loaded one.
    ensures forall k :: 0 <= k < |r.calls| && r.calls[k].FetchTranscript? ==>
      r.calls[k].videoId == id && s.videoId != Some(id)
    // "Nothing loaded, or an id and a store both loaded" is kept.
    ensures Consistent(s) ==> Consistent(r.state)
    // A success report names the loaded video, which is ready for questions.
    ensures Consistent(s) && r.reply.Returns? && (r.reply.value.status.AlreadyProcessed? || r.reply.value.status.Processed?) ==>
      r.state.videoId == Some(id) && r.state.vectorStore.Some?
    // A new video that loads is reported as processed, with the chain's summary of its text.
    ensures s.videoId != Some(id) && Loadable(svc, id) && r.reply.Returns? ==>
      && r.reply.value.status == Processed(id)
      && svc.summarize(r.state.transcript).Returns?
      && r.reply.value.summary == svc.summarize(r.state.transcript).value
    // ... and when that summary is produced, exactly that reply is returned.
    ensures s.videoId != Some(id) && Loadable(svc, id) && svc.summarize(r.state.transcript).Returns? ==>
      r.reply == Returns(Outputs(Processed(id), svc.summarize(r.state.transcript).value, ""))
    // A summarization failure after the update escapes, with the new video loaded.
    ensures s.videoId != Some(id) && Loadable(svc, id) && svc.summarize(r.state.transcript).Raises? ==>
      r.reply == Raises(svc.summarize(r.state.transcript).error)
    // "No transcript" is reported only when the service has no captions.
    ensures r.reply.Returns? && r.reply.value.status.NoTranscript? ==> !HasTranscript(svc, id)
    // Exceptions from the splitter and the store builder are not caught.
    ensures s.videoId != Some(id) && HasTranscript(svc, id) ==>
      var text := FormatTranscriptAsText(svc.fetchTranscript(id).value);
      && (svc.chunkText(text).Raises? ==> r.reply == Raises(svc.chunkText(text).error) && r.state == s)
      && (svc.chunkText(text).Returns? && svc.createVectorStore(svc.chunkText(text).value).Raises? ==>
            r.reply == Raises(svc.createVectorStore(svc.chunkText(text).value).error) && r.state == s)
  {
    if s.videoId == Some(id) then Summarized(s, svc, AlreadyProcessed(id), [])
    else if !HasTranscript(svc, id) then
      Step(s, Returns(Outputs(NoTranscript(id), "", "")), [FetchTranscript(id)])
    else
      var text := FormatTranscriptAsText(svc.fetchTranscript(id).value);
      var chunked := [FetchTranscript(id), ChunkText(text)];
      match svc.chunkText(text)
      case Raises(e) => Step(s, Raises(e), chunked)
      case Returns(chunks) =>
        var built := chunked + [CreateVectorStore(chunks)];
        match svc.createVectorStore(chunks)
        case Raises(e) => Step(s, Raises(e), built)
        case Returns(store) => Summarized(VideoData(Some(id), text, Some(store)), svc, Processed(id), built)
  }

  /** `process_video_and_get_summary(url)` on the record `s`. */
  function Process(s: VideoData, url: string, svc: Services): (r: Step)
    // Every return clears the answer box.
    ensures r.reply.Returns? ==> r.reply.value.answer == ""
    // The empty URL is refused before the URL is parsed.
    ensures url == "" ==> r == Step(s, Returns(Outputs(EnterUrl, "", "")), [])
    ensures url != "" && GetVideoId(url).None? ==> r == Step(s, Returns(Outputs(InvalidUrl, "", "")), [])
    // Past both guards, the parsed id decides everything else.
    ensures url != "" && GetVideoId(url).Some? ==> r == ProcessId(s, GetVideoId(url).value, svc)
  {
    if url == "" then Step(s, Returns(Outputs(EnterUrl, "", "")), [])
    else match GetVideoId(url)
      case None => Step(s, Returns(Outputs(InvalidUrl, "", "")), [])
      case Some(id) => ProcessId(s, id, svc)
  }

  /** Number of documents `answer_question` retrieves. */
  const RetrievalCount: nat := 5

  /** The reply to an empty question. */
  const EnterQuestionText := "Please enter a question."

  /** The reply to a question asked before any vector store exists. */
  const NotReadyText := "Please process a video first before asking a question."

  /** What `answer_question` returned or raised, and the calls it made
      outside the model, in order. It has no record to return: it only reads
      `video_data_store`. */
  datatype AskStep = AskStep(reply: Call<string>, calls: seq<Effect>)

  /** `answer_question(question)` against the record `s`. */
  function AnswerQuestion(s: VideoData, question: string, svc: Services): (r: AskStep)
    // The empty question is refused before the vector store is looked at.
    ensures question == "" ==> r == AskStep(Returns(EnterQuestionText), [])
    ensures question != "" && s.vectorStore.None? ==> r == AskStep(Returns(NotReadyText), [])
    // Otherwise the store is searched first, for the question, with k = 5 ...
    ensures question != "" && s.vectorStore.Some? ==>
      && 1 <= |r.calls| <= 2
      && r.calls[0] == SimilaritySearch(s.vectorStore.value, question, RetrievalCount)
    // ... and the answer chain, if reached, gets the retrieved texts one per line, in retrieval order.
    ensures |r.calls| == 2 ==>
      && s.vectorStore.Some?
      && svc.similaritySearch(s.vectorStore.value, question, RetrievalCount).Returns?
      && var docs := svc.similaritySearch(s.vectorStore.value, question, RetrievalCount).value;
         r.calls[1] == AnswerWithContext(Join(docs, '\n'), question) && r.reply == svc.answer(Join(docs, '\n'), question)
    ensures question != "" && s.vectorStore.Some? && svc.similaritySearch(s.vectorStore.value, question, RetrievalCount).Raises? ==>
      r.reply == Raises(svc.similaritySearch(s.vectorStore.value, question, RetrievalCount).error) && |r.calls| == 1
    ensures question != "" && s.vectorStore.Some? && svc.similaritySearch(s.vectorStore.value, question, RetrievalCount).Returns? ==>
      |r.calls| == 2
  {
    if question == "" then AskStep(Returns(EnterQuestionText), [])
    else match s.vectorStore
      case None => AskStep(Returns(NotReadyText), [])
      case Some(store) =>
        var searched := [SimilaritySearch(store, question, RetrievalCount)];
        match svc.similaritySearch(store, question, RetrievalCount)
        case Raises(e) => AskStep(Raises(e), searched)
        case Returns(docs) =>
          var context := Join(docs, '\n');
          AskStep(svc.answer(context, question), searched + [AnswerWithContext(context, question)])
  }

  /** The context handed to the answer chain keeps every retrieved text,
      whole and in retrieval order: when no text holds a line break, cutting
      the context at line breaks gives back exactly the retrieved texts. */
  lemma ContextKeepsRetrievedTexts(s: VideoData, question: string, svc: Services)
    requires question != "" && s.vectorStore.Some?
    requires svc.similaritySearch(s.vectorStore.value, question, RetrievalCount).Returns?
    requires var docs := svc.similaritySearch(s.vectorStore.value, question, RetrievalCount).value;
      |docs| > 0 && forall k :: 0 <= k < |docs| ==> '\n' !in docs[k]
    ensures var r := AnswerQuestion(s, question, svc);
      |r.calls| == 2 && r.calls[1].AnswerWithContext?
      && Split(r.calls[1].context, '\n') == svc.similaritySearch(s.vectorStore.value, question, RetrievalCount).value
  {
    SplitJoin(svc.similaritySearch(s.vectorStore.value, question, RetrievalCount).value, '\n');
  }

  /** A user action, with the answers the outside code gives during it. */
  datatype Event =
    | ProcessVideo(url: string, svc: Services)
    | AskQuestion(question: string, svc: Services)

  /** The record after one action. */
  function Apply(s: VideoData, e: Event): VideoData
  {
    match e
    case ProcessVideo(url, svc) => Process(s, url, svc).state
    case AskQuestion(_, _) => s
  }

  /** The record after a sequence of actions, oldest first. */
  function Run(s: VideoData, events: seq<Event>): VideoData
    decreases |events|
  {
    if |events| == 0 then s else Run(Apply(s, events[0]), events[1..])
  }

  /** `d` is the record the processing action `e` writes. */
  predicate WrittenBy(d: VideoData, e: Event)
  {
    e.ProcessVideo? && GetVideoId(e.url).Some? && BuiltFrom(d, GetVideoId(e.url).value, e.svc)
  }

  /** After any sequence of actions the record is either untouched or, all
      three fields together, what a single processing action in the sequence
      wrote: with the actions applied one after another, fields from
      different videos or different runs never mix, and questions never
      change the record. */
  lemma {:induction false} RunProvenance(s: VideoData, events: seq<Event>)
    ensures Run(s, events) == s || exists k :: 0 <= k < |events| && WrittenBy(Run(s, events), events[k])
    decreases |events|
  {
    if |events| > 0 {
      var s' := Apply(s, events[0]);
      RunProvenance(s', events[1..]);
      var t := Run(s, events);
      assert t == Run(s', events[1..]);
      if t == s' {
        if s' != s {
          assert WrittenBy(t, events[0]);
        }
      } else {
        var k :| 0 <= k < |events[1..]| && WrittenBy(t, events[1..][k]);
        assert WrittenBy(t, events[k + 1]);
      }
    }
  }

  /** From start-up, the record holds its initial values until a processing
      action succeeds, and from then on holds exactly what one processing
      action wrote. */
  lemma SessionProvenance(events: seq<Event>)
    ensures var d := Run(Initial(), events);
      (d.videoId == None && d.transcript == "" && d.vectorStore == None)
      || exists k :: 0 <= k < |events| && WrittenBy(d, events[k])
  {
    RunProvenance(Initial(), events);
  }

  /** No action sequence loses the pairing of video id and vector store, so a
      loaded video can always be asked about. */
  lemma {:induction false} RunConsistent(s: VideoData, events: seq<Event>)
    requires Consistent(s)
    ensures Consistent(Run(s, events))
    decreases |events|
  {
    if |events| > 0 {
      RunConsistent(Apply(s, events[0]), events[1..]);
    }
  }

  /** Processing the same video twice does the fetching and indexing once:
      the second call only re-summarizes and leaves the record alone. */
  lemma ReprocessingIsIdempotent(s: VideoData, id: string, svc1: Services, svc2: Services)
    requires s.videoId != Some(id) && Loadable(svc1, id)
    ensures var first := ProcessId(s, id, svc1);
      var second := ProcessId(first.state, id, svc2);
      && FetchTranscript(id) in first.calls
      && second.state == first.state
      && second.calls == [Summarize(first.state.transcript)]
  {
  }
}

=== FILE: text.dfy ===
/** Python's `sep.join(parts)` for a one-character separator, together with its
    inverse `s.split(sep)`, which serves as the reference the join is checked
    against. */
module Text {

  /** Sum of the lengths of `parts`. */
  function TotalLength(parts: seq<string>): nat
  {
    if |parts| == 0 then 0 else |parts[0]| + TotalLength(parts[1..])
  }

  /** `sep.join(parts)`: the parts in order, with one `sep` between neighbours. */
  function Join(parts: seq<string>, sep: char): (r: string)
    ensures |parts| == 0 ==> r == ""
    ensures |parts| > 0 ==> |r| == TotalLength(parts) + |parts| - 1
    ensures |parts| > 0 ==> r[..|parts[0]|] == parts[0]
    ensures |parts| > 1 ==> r[|parts[0]|] == sep
  {
    if |parts| == 0 then ""
    else if |parts| == 1 then parts[0]
    else parts[0] + [sep] + Join(parts[1..], sep)
  }

  /** Index of the first `sep` in `s`. */
  function IndexOf(s: string, sep: char): (i: nat)
    requires sep in s
    ensures i < |s| && s[i] == sep
    ensures sep !in s[..i]
  {
    if s[0] == sep then 0
    else
      assert sep in s[1..] by { assert s == [s[0]] + s[1..]; }
      var j := IndexOf(s[1..], sep);
      assert s[..j + 1] == [s[0]] + s[1..][..j];
      j + 1
  }

  /** `s.split(sep)`: the maximal `sep`-free pieces of `s`, in order; the empty
      string splits into one empty piece. */
  function Split(s: string, sep: char): (r: seq<string>)
    ensures |r| >= 1
    ensures forall k :: 0 <= k < |r| ==> sep !in r[k]
    decreases |s|
  {
    if sep !in s then [s]
    else
      var i := IndexOf(s, sep);
      [s[..i]] + Split(s[i + 1..], sep)
  }

  /** Joining a part in front of at least one other adds the part and one
      separator. */
  lemma JoinCons(x: string, rest: seq<string>, sep: char)
    requires |rest| > 0
    ensures Join([x] + rest, sep) == x + [sep] + Join(rest, sep)
  {
    assert ([x] + rest)[0] == x;
    assert ([x] + rest)[1..] == rest;
  }

  /** Joining the pieces of a split gives back the original string. */
  lemma {:induction false} JoinSplit(s: string, sep: char)
    ensures Join(Split(s, sep), sep) == s
    decreases |s|
  {
    if sep in s {
      var i := IndexOf(s, sep);
      var head, tail := s[..i], s[i + 1..];
      var rest := Split(tail, sep);
      JoinSplit(tail, sep);
      assert Split(s, sep) == [head] + rest;
      JoinCons(head, rest, sep);
      assert s == head + [sep] + tail;
    }
  }

  /** Splitting a join of `sep`-free parts gives back the parts, in order: the
      join neither loses, merges nor reorders them. */
  lemma {:induction false} SplitJoin(parts: seq<string>, sep: char)
    requires |parts| > 0
    requires forall k :: 0 <= k < |parts| ==> sep !in parts[k]
    ensures Split(Join(parts, sep), sep) == parts
  {
    if |parts| > 1 {
      var s := Join(parts, sep);
      var rest := Join(parts[1..], sep);
      assert s == parts[0] + [sep] + rest;
      assert sep in s by { assert s[|parts[0]|] == sep; }
      var i := IndexOf(s, sep);
      assert i == |parts[0]|;
      assert s[..i] == parts[0];
      assert s[i + 1..] == rest;
      SplitJoin(parts[1..], sep);
      assert parts == [parts[0]] + parts[1..];
    }
  }
}

=== FILE: transcript.dfy ===
/** The transcript side of `utils.py`: the caption segments the transcript
    service returns and their flattening into one string. */
module Transcript {
  import opened Text

  /** One timed caption line. Only `text` is used downstream; the timing is
      carried but never read. */
  datatype Segment = Segment(text: string, start: real, duration: real)

  /** The caption texts, in order. */
  function Texts(t: seq<Segment>): (r: seq<string>)
    ensures |r| == |t| && forall k :: 0 <= k < |t| ==> r[k] == t[k].text
  {
    seq(|t|, k requires 0 <= k < |t| => t[k].text)
  }

  /** `format_transcript_as_text`: the caption texts joined by single spaces,
      the empty string when there are no captions. */
  function FormatTranscriptAsText(t: seq<Segment>): (r: string)
    ensures |t| == 0 ==> r == ""
    ensures |t| > 0 ==> |r| == TotalLength(Texts(t)) + |t| - 1
    ensures |t| > 0 ==> r[..|t[0].text|] == t[0].text
    ensures |t| == 1 ==> r == t[0].text
  {
    if |t| == 0 then "" else Join(Texts(t), ' ')
  }

  /** Flattening one caption ahead of a non-empty rest puts exactly that
      caption's text and one space before the flattened rest, whatever the
      captions contain. */
  lemma FormatCons(c: Segment, rest: seq<Segment>)
    requires |rest| > 0
    ensures FormatTranscriptAsText([c] + rest) == c.text + " " + FormatTranscriptAsText(rest)
  {
    assert Texts([c] + rest) == [c.text] + Texts(rest);
    JoinCons(c.text, Texts(rest), ' ');
  }

  /** When no caption contains a space, splitting the flattened text on
      spaces gives back every caption text, in order: flattening loses
      nothing but the timing. */
  lemma FormatSplitsBack(t: seq<Segment>)
    requires |t| > 0
    requires forall k :: 0 <= k < |t| ==> ' ' !in t[k].text
    ensures Split(FormatTranscriptAsText(t), ' ') == Texts(t)
  {
    SplitJoin(Texts(t), ' ');
  }

  /** Flattening is the inverse of splitting: cutting a text into one caption
      per space-separated word and flattening those captions rebuilds it. */
  lemma FormatOfSplit(text: string, start: real, duration: real)
    ensures var words := Split(text, ' ');
      FormatTranscriptAsText(seq(|words|, k requires 0 <= k < |words| => Segment(words[k], start, duration))) == text
  {
    var words := Split(text, ' ');
    var t := seq(|words|, k requires 0 <= k < |words| => Segment(words[k], start, duration));
    assert Texts(t) == words;
    JoinSplit(text, ' ');
  }
}

=== FILE: url_pattern.dfy ===
/** The language of the video-URL pattern of `get_video_id`,
      (?:https?://)?(?:www\.)?
      (?:youtube\.com/(?:[^/\n\s]+/\S+/|(?:v|e(?:mbed)?)/|\S*?[?&]v=)|youtu\.be/)
      ([a-zA-Z0-9_-]{11})
    stated declaratively: which (start, capture) position pairs the pattern can
    match, with no regard to the order in which a backtracking engine tries
    them. The character classes are Python's for `str` patterns. */
module UrlPattern {

  /** Number of characters of a video id, `{11}` in the pattern. */
  const IdLength: nat := 11

  /** `[a-zA-Z0-9_-]`: ASCII only, no case folding. */
  predicate IsIdChar(c: char)
  {
    ('a' <= c <= 'z') || ('A' <= c <= 'Z') || ('0' <= c <= '9') || c == '_' || c == '-'
  }

  /** Python's `\s` on `str`: the Unicode white-space characters. */
  predicate IsSpace(c: char)
  {
    var n := c as int;
    (9 <= n <= 13) || (28 <= n <= 32) || n == 0x85 || n == 0xA0 || n == 0x1680
    || (0x2000 <= n <= 0x200A) || n == 0x2028 || n == 0x2029 || n == 0x202F
    || n == 0x205F || n == 0x3000
  }

  /** `[^/\n\s]`: a character of a path segment. */
  predicate IsSegmentChar(c: char)
  {
    c != '/' && c != '\n' && !IsSpace(c)
  }

  /** `s` holds `lit` starting at index `i`. */
  predicate HasAt(s: string, i: nat, lit: string)
  {
    i + |lit| <= |s| && s[i..i + |lit|] == lit
  }

  /** Every character of `s[i..j]` is in `[^/\n\s]`. */
  predicate AllSegment(s: string, i: nat, j: nat)
    requires i <= j <= |s|
  {
    forall k :: i <= k < j ==> IsSegmentChar(s[k])
  }

  /** Every character of `s[i..j]` is in `\S`. */
  predicate AllNonSpace(s: string, i: nat, j: nat)
    requires i <= j <= |s|
  {
    forall k :: i <= k < j ==> !IsSpace(s[k])
  }

  /** `id` is a well-formed video id: eleven characters of `[a-zA-Z0-9_-]`. */
  predicate IsId(id: string)
  {
    |id| == IdLength && forall k :: 0 <= k < |id| ==> IsIdChar(id[k])
  }

  /** The capture group `([a-zA-Z0-9_-]{11})` matches at `p`. */
  predicate IdAt(s: string, p: nat)
  {
    p + IdLength <= |s| && forall k :: p <= k < p + IdLength ==> IsIdChar(s[k])
  }

  /** `(?:https?://)?` matches `s[i..j]`. */
  predicate SchemeAt(s: string, i: nat, j: nat)
  {
    j == i || (j == i + 8 && HasAt(s, i, "https://")) || (j == i + 7 && HasAt(s, i, "http://"))
  }

  /** `(?:www\.)?` matches `s[j..w]`. */
  predicate WwwAt(s: string, j: nat, w: nat)
  {
    w == j || (w == j + 4 && HasAt(s, j, "www."))
  }

  /** `(?:https?://)?(?:www\.)?` matches `s[i..w]`. */
  predicate PrefixAt(s: string, i: nat, w: nat)
  {
    exists j :: i <= j <= w && SchemeAt(s, i, j) && WwwAt(s, j, w)
  }

  /** `[^/\n\s]+/\S+/` matches `s[q..p]`. */
  predicate NestedPathAt(s: string, q: nat, p: nat)
  {
    && q + 4 <= p <= |s|
    && s[p - 1] == '/'
    && exists a :: q < a && a + 2 < p && AllSegment(s, q, a) && s[a] == '/' && AllNonSpace(s, a + 1, p - 1)
  }

  /** `(?:v|e(?:mbed)?)/` matches `s[q..p]`. */
  predicate EmbedPathAt(s: string, q: nat, p: nat)
  {
    (p == q + 2 && (HasAt(s, q, "v/") || HasAt(s, q, "e/"))) || (p == q + 6 && HasAt(s, q, "embed/"))
  }

  /** `\S*?[?&]v=` matches `s[q..p]`. */
  predicate QueryPathAt(s: string, q: nat, p: nat)
  {
    q + 3 <= p <= |s| && AllNonSpace(s, q, p - 3) && (s[p - 3] == '?' || s[p - 3] == '&')
      && s[p - 2] == 'v' && s[p - 1] == '='
  }

  /** `(?:[^/\n\s]+/\S+/|(?:v|e(?:mbed)?)/|\S*?[?&]v=)` matches `s[q..p]`. */
  predicate PathAt(s: string, q: nat, p: nat)
  {
    NestedPathAt(s, q, p) || EmbedPathAt(s, q, p) || QueryPathAt(s, q, p)
  }

  /** `youtube\.com/(?:…|…|…)|youtu\.be/` matches `s[w..p]`. */
  predicate HostAt(s: string, w: nat, p: nat)
  {
    || (HasAt(s, w, "youtube.com/") && PathAt(s, w + 12, p))
    || (HasAt(s, w, "youtu.be/") && p == w + 9)
  }

  /** Everything before the capture group matches `s[i..p]`. */
  ghost predicate ShapeAt(s: string, i: nat, p: nat)
  {
    exists w :: i <= w <= p && PrefixAt(s, i, w) && HostAt(s, w, p)
  }

  /** The whole pattern matches a substring starting at `i` whose capture
      group starts at `p`. */
  ghost predicate Matches(s: string, i: nat, p: nat)
  {
    ShapeAt(s, i, p) && IdAt(s, p)
  }

  /** Some match of the pattern starts at `i`. */
  ghost predicate MatchStartsAt(s: string, i: nat)
  {
    exists p :: Matches(s, i, p)
  }

  /** The leftmost match of the pattern starts at `i`. */
  ghost predicate LeftmostStart(s: string, i: nat)
  {
    MatchStartsAt(s, i) && forall j :: 0 <= j < i ==> !MatchStartsAt(s, j)
  }

  /** The capture group of a match that starts leftmost starts at `p`. */
  ghost predicate LeftmostCapture(s: string, p: nat)
  {
    exists i :: Matches(s, i, p) && LeftmostStart(s, i)
  }
}

=== FILE: video_id.dfy ===
/** `get_video_id`: Python's `re.search` of the video-URL pattern, as the
    backtracking engine runs it. For each start position, from the left, the
    engine walks the pattern's choices in a fixed order; every branch of the
    pattern ends in the same capture group `([a-zA-Z0-9_-]{11})` with nothing
    after it, so the match found is the first position, in that order, at
    which the branch reached so far is followed by eleven id characters. */
module VideoId {
  import opened Wrappers
  import opened UrlPattern

  /** End of the longest run of `[^/\n\s]` characters starting at `i`. */
  function SegmentEnd(s: string, i: nat): (e: nat)
    requires i <= |s|
    ensures i <= e <= |s| && AllSegment(s, i, e)
    ensures e < |s| ==> !IsSegmentChar(s[e])
    decreases |s| - i
  {
    if i < |s| && IsSegmentChar(s[i]) then SegmentEnd(s, i + 1) else i
  }

  /** End of the longest run of `\S` characters starting at `i`. */
  function NonSpaceEnd(s: string, i: nat): (e: nat)
    requires i <= |s|
    ensures i <= e <= |s| && AllNonSpace(s, i, e)
    ensures e < |s| ==> IsSpace(s[e])
    decreases |s| - i
  {
    if i < |s| && !IsSpace(s[i]) then NonSpaceEnd(s, i + 1) else i
  }

  /** The greedy `\S+/` from `r`, trying runs of `m`, `m - 1`, …, `1`
      characters, each followed by a `/` and then by the capture group: the
      capture position of the first run that works. */
  function SlashRun(s: string, r: nat, m: nat): (c: Option<nat>)
    requires r + m <= |s|
    ensures c.Some? ==> r + 2 <= c.value <= r + m + 1 && c.value <= |s| && s[c.value - 1] == '/' && IdAt(s, c.value)
    ensures c.None? ==> forall p :: r + 2 <= p <= r + m + 1 && p <= |s| && s[p - 1] == '/' ==> !IdAt(s, p)
    // Greedy: no later `/` in the run is followed by an id.
    ensures c.Some? ==> forall p :: c.value < p <= r + m + 1 && p <= |s| && s[p - 1] == '/' ==> !IdAt(s, p)
    decreases m
  {
    if m == 0 then None
    else if r + m < |s| && s[r + m] == '/' && IdAt(s, r + m + 1) then Some(r + m + 1)
    else SlashRun(s, r, m - 1)
  }

  /** The greedy `[^/\n\s]+/\S+/` from `q`, trying segment runs of `l`,
      `l - 1`, …, `1` characters, each followed by a `/` and then by
      `\S+/`. */
  function SegmentRun(s: string, q: nat, l: nat): Option<nat>
    requires q + l <= |s|
    decreases l
  {
    if l == 0 then None
    else
      var here := if q + l < |s| && s[q + l] == '/' then SlashRun(s, q + l + 1, NonSpaceEnd(s, q + l + 1) - (q + l + 1)) else None;
      if here.Some? then here else SegmentRun(s, q, l - 1)
  }

  /** `[?&]v=` follows the first `l` characters after `q`. */
  predicate QueryKeyAt(s: string, q: nat, l: nat)
  {
    q + l + 3 <= |s| && (s[q + l] == '?' || s[q + l] == '&') && s[q + l + 1] == 'v' && s[q + l + 2] == '='
  }

  /** The lazy `\S*?[?&]v=` from `q`, trying runs of `l`, `l + 1`, …,
      `limit` characters, each followed by `[?&]v=` and the capture group. */
  function QueryRun(s: string, q: nat, l: nat, limit: nat): (c: Option<nat>)
    requires l <= limit && q + limit <= |s|
    ensures c.Some? ==> q + l + 3 <= c.value <= q + limit + 3 && QueryKeyAt(s, q, c.value - 3 - q) && IdAt(s, c.value)
    ensures c.None? ==> forall p :: q + l + 3 <= p <= q + limit + 3 && QueryKeyAt(s, q, p - 3 - q) ==> !IdAt(s, p)
    // Lazy: no earlier `[?&]v=` in range is followed by an id.
    ensures c.Some? ==> forall p :: q + l + 3 <= p < c.value && QueryKeyAt(s, q, p - 3 - q) ==> !IdAt(s, p)
    decreases limit - l
  {
    if QueryKeyAt(s, q, l) && IdAt(s, q + l + 3) then Some(q + l + 3)
    else if l < limit then QueryRun(s, q, l + 1, limit)
    else None
  }

  /** Segment runs shorter than the whole segment are never followed by `/`. */
  lemma {:induction false} ShortSegmentsFail(s: string, q: nat, l: nat)
    requires q + l < |s| && AllSegment(s, q, q + l + 1)
    ensures SegmentRun(s, q, l) == None
    decreases l
  {
    if l > 0 {
      ShortSegmentsFail(s, q, l - 1);
    }
  }

  /** Every `[^/\n\s]+/\S+/` from `q` has its first `/` where the segment
      run from `q` ends, and its last `/` within the `\S` run after it. */
  lemma NestedPathShape(s: string, q: nat, p: nat)
    requires NestedPathAt(s, q, p)
    ensures var e := SegmentEnd(s, q);
      && q < e < |s| && s[e] == '/' && e + 2 < p
      && AllNonSpace(s, e + 1, p - 1) && p - 1 <= NonSpaceEnd(s, e + 1)
  {
    var a :| q < a && a + 2 < p && AllSegment(s, q, a) && s[a] == '/' && AllNonSpace(s, a + 1, p - 1);
    var e := SegmentEnd(s, q);
    assert !IsSegmentChar(s[a]);
    assert a == e;
  }

  /** The first alternative after `youtube.com/`, `[^/\n\s]+/\S+/`: the
      whole segment run is tried first, and shorter ones cannot end in `/`. */
  function NestedRun(s: string, q: nat): Option<nat>
    requires q <= |s|
  {
    SegmentRun(s, q, SegmentEnd(s, q) - q)
  }

  /** What the first alternative finds is a `[^/\n\s]+/\S+/` and an id. */
  lemma NestedRunSound(s: string, q: nat)
    requires q <= |s|
    ensures NestedRun(s, q).Some? ==> NestedPathAt(s, q, NestedRun(s, q).value) && IdAt(s, NestedRun(s, q).value)
  {
    var e := SegmentEnd(s, q);
    var c := NestedRun(s, q);
    if c.Some? {
      ShortSegmentsFail(s, q, e - q - 1);
      assert s[e] == '/' && AllSegment(s, q, e) && AllNonSpace(s, e + 1, c.value - 1);
    }
  }

  /** A segment run of `l` characters followed by `/` hands over to `\S+/`
      when the shorter runs have nothing. */
  lemma SegmentRunTop(s: string, q: nat, l: nat)
    requires 0 < l && q + l < |s| && s[q + l] == '/' && SegmentRun(s, q, l - 1) == None
    ensures SegmentRun(s, q, l) == SlashRun(s, q + l + 1, NonSpaceEnd(s, q + l + 1) - (q + l + 1))
  {
  }

  /** Any `[^/\n\s]+/\S+/` followed by an id makes the first alternative
      succeed. */
  lemma NestedRunComplete(s: string, q: nat, p: nat)
    requires q <= |s| && NestedPathAt(s, q, p) && IdAt(s, p)
    ensures NestedRun(s, q).Some?
  {
    NestedPathShape(s, q, p);
    var e := SegmentEnd(s, q);
    ShortSegmentsFail(s, q, e - q - 1);
    SegmentRunTop(s, q, e - q);
    var m := NonSpaceEnd(s, e + 1) - (e + 1);
    assert e + 1 + 2 <= p <= e + 1 + m + 1;
  }

  /** The second alternative after `youtube.com/`, `(?:v|e(?:mbed)?)/`:
      `v/`, then `embed/` (the optional group is greedy), then `e/`. */
  function EmbedRun(s: string, q: nat): (c: Option<nat>)
    ensures c.Some? ==> EmbedPathAt(s, q, c.value) && IdAt(s, c.value)
    ensures c.None? ==> forall p :: EmbedPathAt(s, q, p) ==> !IdAt(s, p)
  {
    if HasAt(s, q, "v/") && IdAt(s, q + 2) then Some(q + 2)
    else if HasAt(s, q, "embed/") && IdAt(s, q + 6) then Some(q + 6)
    else if HasAt(s, q, "e/") && IdAt(s, q + 2) then Some(q + 2)
    else None
  }

  /** The third alternative after `youtube.com/`, `\S*?[?&]v=`: lazily, from
      the empty run up to the whole `\S` run. */
  function QueryRunAll(s: string, q: nat): Option<nat>
    requires q <= |s|
  {
    QueryRun(s, q, 0, NonSpaceEnd(s, q) - q)
  }

  /** The third alternative finds a capture exactly when some `\S*?[?&]v=`
      can be followed by an id, and what it finds is one. */
  lemma QueryRunAllFacts(s: string, q: nat, p: nat)
    requires q <= |s|
    ensures QueryRunAll(s, q).Some? ==> QueryPathAt(s, q, QueryRunAll(s, q).value) && IdAt(s, QueryRunAll(s, q).value)
    ensures QueryPathAt(s, q, p) && IdAt(s, p) ==> QueryRunAll(s, q).Some?
  {
    var e := NonSpaceEnd(s, q);
    if QueryPathAt(s, q, p) {
      assert p - 3 <= e;
    }
  }

  /** After `youtube.com/`: the three alternatives `[^/\n\s]+/\S+/`,
      `(?:v|e(?:mbed)?)/` and `\S*?[?&]v=`, in that order. */
  function PathRun(s: string, q: nat): Option<nat>
    requires q <= |s|
  {
    var nested := NestedRun(s, q);
    var embed := EmbedRun(s, q);
    if nested.Some? then nested
    else if embed.Some? then embed
    else QueryRunAll(s, q)
  }

  /** What the path alternatives find is a path and an id. */
  lemma PathRunSound(s: string, q: nat)
    requires q <= |s|
    ensures PathRun(s, q).Some? ==> PathAt(s, q, PathRun(s, q).value) && IdAt(s, PathRun(s, q).value)
  {
    NestedRunSound(s, q);
    QueryRunAllFacts(s, q, 0);
  }

  /** Any path followed by an id makes the path alternatives succeed. */
  lemma PathRunComplete(s: string, q: nat, p: nat)
    requires q <= |s| && PathAt(s, q, p) && IdAt(s, p)
    ensures PathRun(s, q).Some?
  {
    if NestedPathAt(s, q, p) {
      NestedRunComplete(s, q, p);
    } else if !EmbedPathAt(s, q, p) {
      QueryRunAllFacts(s, q, p);
    }
  }

  /** From the host name at `w`: `youtube.com/` and its path, then `youtu.be/`. */
  function HostRun(s: string, w: nat): Option<nat>
  {
    var viaCom := if HasAt(s, w, "youtube.com/") then PathRun(s, w + 12) else None;
    if viaCom.Some? then viaCom
    else if HasAt(s, w, "youtu.be/") && IdAt(s, w + 9) then Some(w + 9)
    else None
  }

  /** What the host alternatives find is a host, a path and an id. */
  lemma HostRunSound(s: string, w: nat)
    ensures HostRun(s, w).Some? ==> HostAt(s, w, HostRun(s, w).value) && IdAt(s, HostRun(s, w).value)
  {
    if HasAt(s, w, "youtube.com/") {
      PathRunSound(s, w + 12);
    }
  }

  /** Any host and path followed by an id make the host alternatives succeed. */
  lemma HostRunComplete(s: string, w: nat, p: nat)
    requires HostAt(s, w, p) && IdAt(s, p)
    ensures HostRun(s, w).Some?
  {
    if HasAt(s, w, "youtube.com/") && PathAt(s, w + 12, p) {
      PathRunComplete(s, w + 12, p);
    }
  }

  /** After the scheme, at `j`: with `www.` first, then without. */
  function WwwRun(s: string, j: nat): Option<nat>
  {
    var viaWww := if HasAt(s, j, "www.") then HostRun(s, j + 4) else None;
    if viaWww.Some? then viaWww else HostRun(s, j)
  }

  /** What the run after a scheme finds is an optional `www.`, a host, a
      path and an id. */
  lemma WwwRunSound(s: string, j: nat)
    ensures WwwRun(s, j).Some? ==>
      var p := WwwRun(s, j).value;
      IdAt(s, p) && ((WwwAt(s, j, j + 4) && HostAt(s, j + 4, p)) || (WwwAt(s, j, j) && HostAt(s, j, p)))
  {
    HostRunSound(s, j);
    if HasAt(s, j, "www.") {
      HostRunSound(s, j + 4);
    }
  }

  /** Any optional `www.`, host and path followed by an id make the run after
      a scheme succeed. */
  lemma WwwRunComplete(s: string, j: nat, w: nat, p: nat)
    requires WwwAt(s, j, w) && HostAt(s, w, p) && IdAt(s, p)
    ensures WwwRun(s, j).Some?
  {
    HostRunComplete(s, w, p);
  }

  /** The engine's attempt at start position `i`: `https://`, then
      `http://`, then no scheme. */
  function MatchAt(s: string, i: nat): Option<nat>
  {
    var https := if HasAt(s, i, "https://") then WwwRun(s, i + 8) else None;
    var http := if HasAt(s, i, "http://") then WwwRun(s, i + 7) else None;
    if https.Some? then https else if http.Some? then http else WwwRun(s, i)
  }

  /** The attempt at `i` fails exactly when no match of the pattern starts
      at `i`, and what it returns is a match. */
  lemma MatchAtFacts(s: string, i: nat)
    ensures MatchAt(s, i).Some? ==> Matches(s, i, MatchAt(s, i).value)
    ensures MatchAt(s, i).None? <==> !MatchStartsAt(s, i)
  {
    MatchAtSound(s, i);
    MatchAtComplete(s, i);
  }

  /** A run after a scheme ending at `j` is a match starting at `i`. */
  lemma RunMatches(s: string, i: nat, j: nat)
    requires SchemeAt(s, i, j) && WwwRun(s, j).Some?
    ensures Matches(s, i, WwwRun(s, j).value)
  {
    var p := WwwRun(s, j).value;
    WwwRunSound(s, j);
    var w := if WwwAt(s, j, j + 4) && HostAt(s, j + 4, p) then j + 4 else j;
    assert PrefixAt(s, i, w);
    assert HostAt(s, w, p);
  }

  /** What the attempt at `i` returns is a match starting at `i`. */
  lemma MatchAtSound(s: string, i: nat)
    ensures MatchAt(s, i).Some? ==> Matches(s, i, MatchAt(s, i).value)
  {
    if HasAt(s, i, "https://") && WwwRun(s, i + 8).Some? {
      RunMatches(s, i, i + 8);
    } else if HasAt(s, i, "http://") && WwwRun(s, i + 7).Some? {
      RunMatches(s, i, i + 7);
    } else if WwwRun(s, i).Some? {
      RunMatches(s, i, i);
    }
  }

  /** A match starting at `i` makes the attempt at `i` succeed. */
  lemma MatchAtComplete(s: string, i: nat)
    ensures MatchStartsAt(s, i) ==> MatchAt(s, i).Some?
  {
    if MatchStartsAt(s, i) {
      var p :| Matches(s, i, p);
      var w :| i <= w <= p && PrefixAt(s, i, w) && HostAt(s, w, p);
      PrefixComplete(s, i, w, p);
    }
  }

  /** A scheme and `www.` prefix from `i`, then a host and path followed by
      an id, make the attempt at `i` succeed. */
  lemma PrefixComplete(s: string, i: nat, w: nat, p: nat)
    requires PrefixAt(s, i, w) && HostAt(s, w, p) && IdAt(s, p)
    ensures MatchAt(s, i).Some?
  {
    var j :| i <= j <= w && SchemeAt(s, i, j) && WwwAt(s, j, w);
    WwwRunComplete(s, j, w, p);
    if j == i + 8 && HasAt(s, i, "https://") {
      assert WwwRun(s, i + 8).Some?;
    } else if j == i + 7 && HasAt(s, i, "http://") {
      assert WwwRun(s, i + 7).Some?;
    } else {
      assert j == i && WwwRun(s, i).Some?;
    }
  }

  /** The first successful attempt in `attempts` from index `i` on. */
  function FirstSuccess(attempts: seq<Option<nat>>, i: nat): (r: Option<nat>)
    requires i <= |attempts|
    ensures r.Some? ==>
      exists j :: i <= j < |attempts| && attempts[j] == r && forall k :: i <= k < j ==> attempts[k].None?
    ensures r.None? <==> forall j :: i <= j < |attempts| ==> attempts[j].None?
    decreases |attempts| - i
  {
    if i == |attempts| then None
    else if attempts[i].Some? then attempts[i]
    else FirstSuccess(attempts, i + 1)
  }

  /** The engine's attempts at the start positions `0`, `1`, …, `|s|`, in the
      order `re.search` makes them; a match may start at the very end. */
  function Attempts(s: string): (a: seq<Option<nat>>)
    ensures |a| == |s| + 1 && forall i :: 0 <= i < |a| ==> a[i] == MatchAt(s, i)
  {
    seq(|s| + 1, i requires 0 <= i => MatchAt(s, i))
  }

  /** The first successful attempt is the leftmost match of the pattern. */
  lemma LeftmostMatch(s: string)
    ensures FirstSuccess(Attempts(s), 0).Some? ==> IdAt(s, FirstSuccess(Attempts(s), 0).value) && LeftmostCapture(s, FirstSuccess(Attempts(s), 0).value)
    ensures FirstSuccess(Attempts(s), 0).None? <==> forall i :: 0 <= i <= |s| ==> !MatchStartsAt(s, i)
  {
    var a := Attempts(s);
    var r := FirstSuccess(a, 0);
    if r.Some? {
      var i :| 0 <= i < |a| && a[i] == r && forall j :: 0 <= j < i ==> a[j].None?;
      MatchAtFacts(s, i);
      assert Matches(s, i, r.value);
      forall j | 0 <= j < i
        ensures !MatchStartsAt(s, j)
      {
        assert a[j].None?;
        MatchAtFacts(s, j);
      }
      assert LeftmostStart(s, i);
    } else {
      forall i | 0 <= i <= |s|
        ensures !MatchStartsAt(s, i)
      {
        assert a[i].None?;
        MatchAtFacts(s, i);
      }
    }
    forall i | 0 <= i <= |s| && MatchStartsAt(s, i)
      ensures r.Some?
    {
      MatchAtFacts(s, i);
      assert a[i].Some?;
    }
  }

  /** The characters of an id found at `p`, taken out of `s`. */
  lemma IdSlice(s: string, p: nat)
    requires IdAt(s, p)
    ensures IsId(s[p..p + IdLength])
  {
    var id := s[p..p + IdLength];
    assert forall k :: 0 <= k < |id| ==> id[k] == s[p + k];
  }

  /** `get_video_id(url)`: the id captured by the leftmost match of the
      pattern in `url`, or `None` when the pattern matches nowhere. */
  function GetVideoId(url: string): (r: Option<string>)
    ensures r.Some? ==> IsId(r.value)
    ensures r.Some? ==> exists p: nat :: LeftmostCapture(url, p) && r.value == url[p..p + IdLength]
    ensures r.None? <==> forall i :: 0 <= i <= |url| ==> !MatchStartsAt(url, i)
  {
    LeftmostMatch(url);
    var found := FirstSuccess(Attempts(url), 0);
    if found.None? then None
    else
      IdSlice(url, found.value);
      Some(url[found.value..found.value + IdLength])
  }
}

=== FILE: video_id_shapes.dfy ===
/** The common URL shapes that `get_video_id` accepts, each proved to yield the
    id it carries whatever follows it. */
module VideoIdShapes {
  import opened Wrappers
  import opened UrlPattern
  import opened VideoId

  /** The scheme and `www.` are optional: the bare short link `youtu.be/<id>`
      yields its id, and any characters after the eleventh are ignored. */
  lemma ShortLinkYieldsId(id: string, tail: string)
    requires IsId(id)
    ensures GetVideoId("youtu.be/" + id + tail) == Some(id)
  {
    var s := "youtu.be/" + id + tail;
    assert s[..9] == "youtu.be/";
    assert s[9..9 + IdLength] == id;
    assert !HasAt(s, 0, "https://") && !HasAt(s, 0, "http://") && !HasAt(s, 0, "www.") by {
      assert s[0] == 'y';
    }
    assert !HasAt(s, 0, "youtube.com/") by {
      assert s[5] == '.';
    }
    assert HasAt(s, 0, "youtu.be/");
    assert IdAt(s, 9);
    assert HostRun(s, 0) == Some(9);
    assert MatchAt(s, 0) == Some(9);
    assert Attempts(s)[0] == Some(9);
  }

  /** Without a `/` after `youtube.com/`, the first alternative of the path,
      `[^/\n\s]+/\S+/`, has nothing to try. */
  lemma {:induction false} NoSlashNoSegmentRun(s: string, q: nat, l: nat)
    requires q + l <= |s|
    requires forall k :: q <= k < |s| ==> s[k] != '/'
    ensures SegmentRun(s, q, l) == None
    decreases l
  {
    if l > 0 {
      NoSlashNoSegmentRun(s, q, l - 1);
    }
  }

  /** A literal placed in a concatenation is found where it was placed. */
  lemma HasAtJoin(x: string, lit: string, y: string)
    ensures HasAt(x + lit + y, |x|, lit)
  {
    assert (x + lit + y)[|x|..|x| + |lit|] == lit;
  }

  /** A literal found at `i` has its `k`-th character at `i + k`. */
  lemma HasAtChar(s: string, i: nat, lit: string, k: nat)
    requires k < |lit|
    ensures HasAt(s, i, lit) ==> s[i + k] == lit[k]
  {
    if HasAt(s, i, lit) {
      assert s[i..i + |lit|][k] == s[i + k];
    }
  }

  /** The facts about `https://www.youtube.com/watch?v=<id><tail>` that decide
      what the engine tries on it. */
  predicate WatchLayout(s: string)
  {
    && HasAt(s, 0, "https://") && !HasAt(s, 0, "http://") && !HasAt(s, 0, "www.")
    && HasAt(s, 8, "www.") && HasAt(s, 12, "youtube.com/") && !HasAt(s, 12, "youtu.be/")
    && !HasAt(s, 24, "v/") && !HasAt(s, 24, "e/") && !HasAt(s, 24, "embed/")
    && HasAt(s, 24, "watch?v=") && IdAt(s, 32)
    && (forall k :: 24 <= k < |s| ==> s[k] != '/')
  }

  /** Where the literals of `https://www.youtube.com/` sit in a link. */
  lemma HostLiterals(rest: string)
    ensures var s := "https://www.youtube.com/" + rest;
      && HasAt(s, 0, "https://") && HasAt(s, 8, "www.") && HasAt(s, 12, "youtube.com/")
      && s[0] == 'h' && s[4] == 's' && s[17] == 'b' && s[24..] == rest
  {
    SchemeLiteral(rest);
    WwwLiteral(rest);
    DomainLiteral(rest);
  }

  /** `https://` opens the link. */
  lemma SchemeLiteral(rest: string)
    ensures HasAt("https://www.youtube.com/" + rest, 0, "https://")
  {
    assert "https://www.youtube.com/" + rest == "" + "https://" + ("www.youtube.com/" + rest);
    HasAtJoin("", "https://", "www.youtube.com/" + rest);
  }

  /** `www.` follows the scheme. */
  lemma WwwLiteral(rest: string)
    ensures HasAt("https://www.youtube.com/" + rest, 8, "www.")
  {
    assert "https://www.youtube.com/" + rest == "https://" + "www." + ("youtube.com/" + rest);
    HasAtJoin("https://", "www.", "youtube.com/" + rest);
  }

  /** `youtube.com/` follows `www.`. */
  lemma DomainLiteral(rest: string)
    ensures HasAt("https://www.youtube.com/" + rest, 12, "youtube.com/")
  {
    assert "https://www.youtube.com/" + rest == "https://www." + "youtube.com/" + rest;
    HasAtJoin("https://www.", "youtube.com/", rest);
  }

  /** The alternatives the engine must reject on `https://www.youtube.com/`. */
  lemma HostMisses(s: string)
    requires |s| >= 24 && s[0] == 'h' && s[4] == 's' && s[17] == 'b'
    ensures !HasAt(s, 0, "http://") && !HasAt(s, 0, "www.") && !HasAt(s, 12, "youtu.be/")
  {
    HasAtChar(s, 0, "www.", 0);
    HasAtChar(s, 0, "http://", 4);
    HasAtChar(s, 12, "youtu.be/", 5);
  }

  /** Where `watch?v=` and the id sit after the host, and which embed
      prefixes are absent. */
  lemma PathLayout(s: string, id: string, tail: string)
    requires IsId(id)
    requires |s| >= 24 && s[24..] == "watch?v=" + id + tail
    ensures !HasAt(s, 24, "v/") && !HasAt(s, 24, "e/") && !HasAt(s, 24, "embed/")
    ensures HasAt(s, 24, "watch?v=") && IdAt(s, 32)
  {
    var rest := "watch?v=" + id + tail;
    assert forall k :: 24 <= k < |s| ==> s[k] == rest[k - 24];
    assert rest == "" + "watch?v=" + (id + tail);
    HasAtJoin("", "watch?v=", id + tail);
    assert s[24..32] == rest[..8];
    assert forall k :: 32 <= k < 32 + IdLength ==> s[k] == id[k - 32];
    assert s[24] == 'w';
    HasAtChar(s, 24, "v/", 0);
    HasAtChar(s, 24, "e/", 0);
    HasAtChar(s, 24, "embed/", 0);
  }

  /** No `/` after the host when none is in the tail. */
  lemma PathHasNoSlash(s: string, id: string, tail: string)
    requires IsId(id)
    requires forall k :: 0 <= k < |tail| ==> tail[k] != '/'
    requires |s| >= 24 && s[24..] == "watch?v=" + id + tail
    ensures forall k :: 24 <= k < |s| ==> s[k] != '/'
  {
    var rest := "watch?v=" + id + tail;
    assert forall k :: 24 <= k < |s| ==> s[k] == rest[k - 24];
    assert forall k :: 0 <= k < 8 ==> rest[k] == "watch?v="[k];
    assert forall k :: 8 <= k < 8 + IdLength ==> rest[k] == id[k - 8];
    assert forall k :: 8 + IdLength <= k < |rest| ==> rest[k] == tail[k - 8 - IdLength];
  }

  /** A watch link with a slash-free tail has the layout the engine walks through. */
  lemma WatchLinkLayout(id: string, tail: string)
    requires IsId(id)
    requires forall k :: 0 <= k < |tail| ==> tail[k] != '/'
    ensures WatchLayout("https://www.youtube.com/watch?v=" + id + tail)
  {
    var rest := "watch?v=" + id + tail;
    var s := "https://www.youtube.com/" + rest;
    assert s == "https://www.youtube.com/watch?v=" + id + tail;
    HostLiterals(rest);
    HostMisses(s);
    PathLayout(s, id, tail);
    PathHasNoSlash(s, id, tail);
  }

  /** The lazy `\S*?[?&]v=` grows past `watch` to reach `?v=`. */
  lemma WatchQueryRun(s: string, q: nat, limit: nat)
    requires q + limit <= |s| && 8 <= limit && HasAt(s, q, "watch?v=") && IdAt(s, q + 8)
    ensures QueryRun(s, q, 0, limit) == Some(q + 8)
  {
    assert forall k :: q <= k < q + 8 ==> s[k] == s[q..q + 8][k - q];
    assert s[q] == 'w' && s[q + 1] == 'a' && s[q + 2] == 't' && s[q + 3] == 'c' && s[q + 4] == 'h';
    assert s[q + 5] == '?' && s[q + 6] == 'v' && s[q + 7] == '=';
    assert QueryRun(s, q, 0, limit) == QueryRun(s, q, 1, limit);
    assert QueryRun(s, q, 1, limit) == QueryRun(s, q, 2, limit);
    assert QueryRun(s, q, 2, limit) == QueryRun(s, q, 3, limit);
    assert QueryRun(s, q, 3, limit) == QueryRun(s, q, 4, limit);
    assert QueryRun(s, q, 4, limit) == QueryRun(s, q, 5, limit);
    assert QueryKeyAt(s, q, 5);
  }

  /** On a watch link the engine's attempt at the first character succeeds
      with the capture after `?v=`. */
  lemma WatchLinkFirstAttempt(s: string)
    requires WatchLayout(s)
    ensures MatchAt(s, 0) == Some(32)
  {
    var q := 24;
    NoSlashNoSegmentRun(s, q, SegmentEnd(s, q) - q);
    var e := NonSpaceEnd(s, q);
    assert e >= 32 by {
      assert forall k :: q <= k < q + 8 ==> s[k] == s[q..q + 8][k - q];
      assert forall k :: q <= k < 32 ==> !IsSpace(s[k]);
    }
    WatchQueryRun(s, q, e - q);
    assert NestedRun(s, q) == None && EmbedRun(s, q) == None;
    assert PathRun(s, q) == Some(32);
    assert HostRun(s, 12) == Some(32);
    assert WwwRun(s, 8) == Some(32);
  }

  /** The usual watch link `https://www.youtube.com/watch?v=<id>` yields its
      id, whatever follows it as long as no `/` does: the `\S*?[?&]v=`
      alternative finds the `?v=` lazily. */
  lemma WatchLinkYieldsId(id: string, tail: string)
    requires IsId(id)
    requires forall k :: 0 <= k < |tail| ==> tail[k] != '/'
    ensures GetVideoId("https://www.youtube.com/watch?v=" + id + tail) == Some(id)
  {
    var s := "https://www.youtube.com/watch?v=" + id + tail;
    WatchLinkLayout(id, tail);
    WatchLinkFirstAttempt(s);
    assert Attempts(s)[0] == Some(32);
    assert s[32..32 + IdLength] == id;
  }
}

=== FILE: wrappers.dfy ===
/** Failure-carrying datatypes shared by the model. */
module Wrappers {

  /** Python's `value | None`. */
  datatype Option<+T> = None | Some(value: T)

  /** The exception a call into a library raised, identified by its message. */
  datatype Exception = Exception(message: string)

  /** The outcome of a call into code outside the model: it either returns a
      value or raises an exception that the caller does not catch. */
  datatype Call<+T> = Returns(value: T) | Raises(error: Exception)
}
